=== FILE: README.md ===
# Asset API: ownership-filtered store and registration gatekeeping, in Dafny

This project models the two controllers of a small Laravel REST API that holds
"asset" records per user.

- The asset controller (`getData`, `show`, `insert`, `update`, `delete`) works
  over an asset table. An administrator (role 1) reaches every asset. Any other
  caller reaches only the assets whose `user_id` is the caller's id. The body of
  an insert or update is validated first (`name` required, `quantity` required
  and an integer, `brand` required, `desc` optional). Only then is the target
  looked up. Each mutation runs inside a transaction, so it either yields the
  new table or leaves the old one as it was.
- The authentication controller validates a registration. Every field must be
  present, the password must equal its confirmation, the role must be numeric,
  and the username, email and phone number (`no_hp`) must each be unused. On
  success it appends exactly one user, with the password stored as its hash. It
  also covers login (missing fields are reported before credentials are
  checked), `profile`, and the token envelope `respondWithToken`.

The state is immutable: the asset table is a `map<int, Asset>` plus the next
auto-increment id, and the user table is a `seq<User>` plus the next id. Every
action is a pure function. It returns its outcome together with the new table.

Modules:

- `Api` (`api.dfy`): `Option`, `Result`, `Outcome`, the error kinds, the
  caller's `Identity`, and the role test `role == 1`.
- `Validation` (`validation.dfy`): the Laravel rules the controllers use over
  JSON request values (a string or a 64-bit integer; absent and null are both
  `None`). The `integer` rule ignores surrounding whitespace, as PHP's integer
  filter does. The `numeric` rule ignores leading whitespace, as `is_numeric`
  does. The module also holds the decimal reading and printing of integers,
  with round-trip lemmas.
- `Assets` (`assets.dfy`): the asset controller, plus lemmas relating its
  actions, over single calls and over any sequence of mutations.
- `Auth` (`auth.dfy`): the authentication controller. Hashing, the
  email-format check, JWT issuing and the token lifetime are the fields of a
  `Services` value. They are functions, so equal arguments give equal results;
  nothing else is assumed about them.
- `Scenario` (`scenario.dfy`): a worked walk-through across both controllers,
  with stand-in services.

Where the code and the documentation disagree, the model follows the code. The
OpenAPI annotations list `desc` as required for insert, update and register, but
no validator checks it, so `desc` is optional here. The insert response carries
no id. The model still knows the new row's id, because it is the table's next
auto-increment value.

## Model

| member | source | states |
|---|---|---|
| `Assets.List` | app/Http/Controllers/Api/AsetController.php:35-40 | an administrator's list is the whole table; anyone else's holds exactly the rows whose owner is the caller, with their stored values |
| `Assets.Show` | app/Http/Controllers/Api/AsetController.php:85-101 | an administrator finds an id whenever it exists; anyone else only when it exists and is their own; the row returned is the stored one; a miss is `no_data_found` |
| `Assets.ListAgreesWithShow` | app/Http/Controllers/Api/AsetController.php:35-40 | listing and `show` apply the same ownership rule: an id is listed exactly when `show` finds it, with the same row |
| `Assets.AssetErrors` | app/Http/Controllers/Api/AsetController.php:144-148 | an insert/update body is accepted exactly when name and brand are present and quantity is present and an integer; desc is never a failing field |
| `Assets.Insert` | app/Http/Controllers/Api/AsetController.php:143-169 | an invalid body gives `error_validation` naming the failing fields, and the table is unchanged; otherwise one row is added under a fresh id with the request's name, quantity, brand and desc and the caller as owner, and every existing row is kept |
| `Assets.Update` | app/Http/Controllers/Api/AsetController.php:225-266 | validation comes first, so an invalid body fails the same way whether or not the id exists or is visible; an unreachable id is `no_data_found` with the table unchanged; on success, of the modelled columns only name, quantity, brand and desc of the target change (desc becomes null when omitted), while its id, its owner and every other row are kept |
| `Assets.Delete` | app/Http/Controllers/Api/AsetController.php:309-333 | an unreachable id is `no_data_found` with the table unchanged; otherwise exactly that row is removed |
| `Assets.InsertThenShow` | app/Http/Controllers/Api/AsetController.php:159-167 | after an accepted insert, `show` of the fresh id returns the request's fields owned by the inserter, and another caller sees it exactly when that caller is an administrator or the inserter |
| `Assets.UpdateThenShow` | app/Http/Controllers/Api/AsetController.php:250-255 | after a successful update the body was valid, and `show` of that id returns the request's name, quantity, brand and desc under the row's original owner |
| `Assets.DeleteThenShowFails` | app/Http/Controllers/Api/AsetController.php:318-319 | after a successful delete, `show` of that id is `no_data_found` for every caller, administrators included |
| `Assets.Apply` | app/Http/Controllers/Api/AsetController.php:176-177 | every mutation keeps the table well formed, and a failed one leaves the table exactly as it was |
| `Assets.GoneStaysGone` | database/migrations/2020_09_18_072319_create_asets_table.php:17 | an id that was handed out and is no longer in use never reappears, whatever requests follow, under the model's assumption that the auto-increment key never reuses ids |
| `Assets.OwnerIsFixed` | app/Http/Controllers/Api/AsetController.php:250-255 | no sequence of requests reassigns an asset: a row present before and after keeps its owner |
| `Assets.DeletedStaysHidden` | app/Http/Controllers/Api/AsetController.php:318-321 | once deleted, an asset is `no_data_found` for every caller after any further requests, under the same assumption about the key |
| `Validation.IntToTextRoundTrip` | app/Http/Controllers/Api/AsetController.php:146 | every 64-bit integer, printed as PHP prints it, passes the `integer` rule (`IsInteger`) and reads back as itself through it; the printed text has nothing for the filter to trim |
| `Validation.TextRoundTrip` | app/Http/Controllers/Api/AsetController.php:163 | integer text without surrounding whitespace, without a `+` and other than "-0" is exactly the printing of its value, so keeping the integer loses nothing for it |
| `Validation.IntegerRuleIgnoresPadding` | app/Http/Controllers/Api/AsetController.php:146 | whitespace that the integer filter strips (space, tab, newline, carriage return, vertical tab), put around a 64-bit integer's decimal text, changes neither acceptance nor value: " 5 " passes and reads as 5 |
| `Validation.NumericRuleIgnoresLeadingSpace` | app/Http/Controllers/Api/AuthController.php:145 | whitespace in front of an integer's decimal text changes neither the `numeric` verdict nor the value: a role " 2" is numeric and is stored as 2 |
| `Auth.Register` | app/Http/Controllers/Api/AuthController.php:137-175 | registration fails exactly when some rule fails, reports those fields, and adds no user; on success exactly one user is appended, with the next id, the request's fields and `Hash(password)` instead of the plaintext, and a bearer token for that user is returned; when registrations are applied one at a time, username, email and no_hp stay unique |
| `Auth.RegisterAcceptsExactly` | app/Http/Controllers/Api/AuthController.php:138-155 | registration succeeds if and only if: name is a present string; username is present and unused; password is present and equals its confirmation; email is a present, well-formed, unused string; no_hp is present and unused; address is present; role is present and numeric (an optionally signed run of digits, leading whitespace allowed) |
| `Auth.RegisterRejectsDuplicates` | app/Http/Controllers/Api/AuthController.php:140-143 | a username, email or no_hp already held by a user fails the registration on that field and adds no user |
| `Auth.LoginErrors` | app/Http/Controllers/Api/AuthController.php:41-44 | the login body is accepted exactly when username and password are both present |
| `Auth.Login` | app/Http/Controllers/Api/AuthController.php:41-66 | missing fields give `error_validation`; otherwise a token is returned exactly when a user with that username exists and the password checks against that user's stored hash; any other failure is `invalid_credentials` |
| `Auth.LoginChecksFieldsFirst` | app/Http/Controllers/Api/AuthController.php:46-53 | a login with a missing field is answered without looking at the users or the password check: the outcome is the same whatever they are |
| `Auth.RegisterThenLogin` | app/Http/Controllers/Api/AuthController.php:157-166 | a user who has just registered can log in with the same username and password, and gets a token for the new user, provided the password check accepts what the hash produced |
| `Auth.IssuedTokensAreBearer` | app/Http/Controllers/Api/AuthController.php:228-234 | every token from login or registration has type `bearer` and an `expires_in` of the lifetime in minutes times 60 |
| `Auth.Profile` | app/Http/Controllers/Api/AuthController.php:208-216 | with no authenticated user the result is `user_not_found`; otherwise it is that user |
| `Scenario.SignupSucceeds` | app/Http/Controllers/Api/AuthController.php:157-175 | a sign-up whose username, email and phone number are unused is accepted: the user is appended under the next id with the hashed password and the role's value, and gets the issued token |
| `Scenario.PaddedTextRole` | app/Http/Controllers/Api/AuthController.php:145 | a role sent as the text " 2" passes `required` and `numeric` and is stored as 2 |
| `Scenario.RegisterDuplicateUsername` | app/Http/Controllers/Api/AuthController.php:140 | a fourth sign-up reusing the first user's username fails on `username` alone |
| `Scenario.AdminSeesStandardUsersAsset` | app/Http/Controllers/Api/AsetController.php:35-40 | a laptop inserted by a standard user is stored with that user as owner; that user and an administrator list it, and a second standard user does not |
| `Scenario.Walkthrough` | app/Http/Controllers/Api/AsetController.php:159-167 | from empty tables, three registrations succeed, the first user's insert is visible to that user and to the administrator but not to the third user, and a duplicate username is refused |

## Left out

- `logout`, the JWT middleware, token parsing, expiry and blacklisting. These
  are library internals. The model takes the authenticated identity as an
  explicit parameter (`Identity` for the asset actions, `Option<User>` for
  `profile`).
- `Hash::make`, `Hash::check`, the `email` rule's format check, JWT issuing and
  the configured lifetime. These are library calls. They are the fields of
  `Auth.Services`. Being functions, they return equal results for equal
  arguments. No lemma assumes anything else about them, except
  `RegisterThenLogin`, which assumes the password check accepts what the hash
  produced.
- Salted hashes. `Hash::make` (AuthController.php:160) salts every hash, so two
  users with the same password store different hashes. In the model they store
  the same `hash(password)`.
- Auth.RegisterThenLogin: `svc.issue(u)` stands for "a token issued for u".
  `auth()->login` (AuthController.php:170) and `auth()->attempt` (:57) each mint
  a new JWT with its own issue time, expiry and random id. So the login after a
  registration returns a different token from the registration, although in
  the model both are `issue(u)`.
- Concurrency. Each action sees the table the previous one left, so requests
  are serialised. In the source, `unique:users` (AuthController.php:140-143) is
  a plain SELECT inside the transaction opened at :137 and takes no lock. Two
  concurrent registrations with the same username, email or no_hp can both pass
  it and both insert at :166. Only a unique index on the users table would
  stop this, and no such migration is part of this model. So the uniqueness
  `Auth.Register` preserves (`users.Valid() ==> g.users.Valid()`) holds for
  serialised registrations only. Likewise an `update` whose row is deleted
  between its lookup (AsetController.php:242-247) and its `save()` (:254) is
  not modelled.
- Persistence failures. In the source, an exception from `save()` or
  `delete()` rolls the transaction back. The model's writes never fail, so the
  failure outcomes are only the validation errors and `no_data_found`. On every
  failure the table is unchanged.
- Transactions left open on a validation failure. `insert`, `update` and
  `register` return without commit or rollback. Nothing has been written at
  that point, so the model leaves the table as it was.
- HTTP status codes, the JSON envelope, routes and the OpenAPI annotations. Only
  the error kind is kept; `Api.Error` names the message code each kind stands
  for.
- Request values other than strings, integers, absent and null. JSON floats,
  booleans and arrays are not modelled. An integer literal outside the 64-bit
  range decodes to a PHP float (a name sent as 100000000000000000000 is stored
  as "1.0E+20"), so it is not a request value either: `Validation.Value`
  carries only 64-bit integers.
- Assets.AssetErrors: a JSON boolean or a float with an integral value (`true`,
  `5.0`) can pass the source's integer filter. These are not request values in
  the model, so the if-and-only-if covers strings and integers only.
- Timestamps. The asset table has `created_at` and `updated_at` columns
  (create_asets_table.php:23). Eloquent writes both on insert, rewrites
  `updated_at` on an update that changes the row, and `getData` and `show`
  return both. The model has no clock and no such columns, so "only the four
  editable columns change" is stated over the modelled columns.
- Global request middleware (trimming strings, empty strings to null). The
  HTTP kernel is not part of this model.
- Database collation. Uniqueness and the login lookup compare strings exactly,
  whereas a case-insensitive collation would treat "Alice" and "alice" as equal.
- Hidden attributes of the user model. app/User.php is not part of this model,
  so `Profile` and `Register` return the full row, hash included.
- List order. `getData` issues no ORDER BY, so the model returns a map from id
  to row.
- Non-integer route ids. In the model, route ids are integers. The `{id}`
  route has no constraint, and how the database engine compares a non-integer
  id such as "5abc" with the key is up to the engine. That comparison is not
  modelled.
- Auth.Register: a role written as a fraction or with an exponent ("1.5",
  "1e0"), or followed by whitespace ("2 ", which `is_numeric` accepts from PHP 8
  on), passes `numeric` in the source but is refused by the model. The role is
  kept as an integer, and PHP's loose comparison with 1 is modelled as integer
  equality. Leading whitespace (" 2") is modelled.
- Auth.RegisterAcceptsExactly: its if-and-only-if uses the same integer-only
  `numeric` rule, so "1.5", "1e0" and "2 " fall on the refused side although
  the source accepts them.
- Assets.Insert: keeps the quantity's integer value, whereas the text column
  receives the request text as sent. So "+5", "-0" and " 5 " are stored in the
  source as written, and in the model as 5, 0 and 5. `TextRoundTrip` shows the
  two agree for every accepted text without surrounding whitespace, without `+`
  and other than "-0".
- Assets.Update: makes the same choice for the quantity as `Assets.Insert`.
- Assets.Insert: `user_id` is a 32-bit `integer` column
  (create_asets_table.php:22). On a strict-mode MySQL, an owner id above
  2147483647 makes the insert throw and roll back. The model stores any
  integer owner id.
- Assets.GoneStaysGone: that the auto-increment key never hands out an id
  twice is the model's assumption about the database engine. The migration
  only asks for `bigIncrements` (create_asets_table.php:17). PostgreSQL
  sequences, SQLite `AUTOINCREMENT` and MySQL 8.0 or later keep it. InnoDB
  before MySQL 8.0 does not across a restart: it restarts the counter at the
  largest id in use plus one, so deleting the newest asset, restarting and
  inserting hands the deleted id out again.
- Assets.DeletedStaysHidden: rests on the same assumption. On such an engine,
  after that restart and insert, `show` finds an asset under the deleted id.
- Assets.Insert: requires the table's well-formedness (every id lies below the
  next auto-increment value). This is an invariant of the database that every
  action preserves, not a demand on callers.
- `respondWithToken` has no contract of its own. Its shape (type `bearer`,
  `expires_in` of the lifetime times 60) is stated by `IssuedTokensAreBearer`
  about every token that login and registration return.
- The login lookup inside `auth()->attempt`. It is modelled the way the
  Eloquent user provider does it: the first user with that username, then the
  abstract password check.

=== FILE: api.dfy ===
/** Vocabulary shared by both controllers: optional values, results, the error
    kinds the controllers report, and the caller's identity with its role test. */
module Api {

  /** A value that may be missing (an absent or null request field, a query
      that found no row). */
  datatype Option<+T> = None | Some(value: T)

  /** The error kinds the controllers report. `Invalid` is the `error_validation`
      response and carries the names of the fields whose rules failed; the others
      stand for the message codes `no_data_found`, `invalid_credentials` and
      `user_not_found` that each action throws and catches. */
  datatype Error =
    | Invalid(fields: set<string>)
    | NoDataFound
    | InvalidCredentials
    | UserNotFound

  /** The outcome of an action that returns a payload. */
  datatype Result<+T> = Ok(value: T) | Err(error: Error)

  /** The outcome of an action that returns only a success message. */
  datatype Outcome = Done | Failed(error: Error)

  /** The authenticated caller, as the JWT middleware resolves it. */
  datatype Identity = Identity(id: int, role: int)

  /** The role number that grants access to every asset. */
  const AdminRole: int := 1

  predicate IsAdmin(who: Identity)
  {
    who.role == AdminRole
  }
}

=== FILE: assets.dfy ===
/** The asset controller: list, show, insert, update and delete over the asset
    table, each filtered by the caller's role. An administrator (role 1) reaches
    every asset; any other caller reaches only the assets whose owner is the
    caller. Every mutation is all-or-nothing: it yields the new table, or the
    old one unchanged together with the error. */
module Assets {
  import opened Api
  import opened Validation

  /** A row of the asset table, without its id (the table's key). The quantity
      column holds text, but only values that pass the `integer` rule are ever
      written to it, so the model keeps the integer. */
  datatype Asset = Asset(name: string, quantity: int, brand: string, desc: Option<string>, userId: int)

  /** The asset table: rows by id, and the next id the auto-increment key hands out. */
  datatype Store = Store(rows: map<int, Asset>, nextId: int)
  {
    /** Ids start at 1 and every id in use was handed out before `nextId`. */
    predicate Valid()
    {
      nextId >= 1 && forall id :: id in rows ==> 1 <= id < nextId
    }
  }

  /** The body of an insert or update request. */
  datatype AssetRequest = AssetRequest(name: Field, quantity: Field, brand: Field, desc: Field)

  /** The outcome of a mutating action together with the table after it. */
  datatype Mutation = Mutation(outcome: Outcome, store: Store)

  /** The ownership rule: whether the caller may see and change this asset. */
  predicate Reaches(who: Identity, a: Asset)
  {
    IsAdmin(who) || a.userId == who.id
  }

  /** The lookup `show`, `update` and `delete` share: `find(id)` for an
      administrator, `where id = ? and user_id = caller` for anyone else. */
  function Lookup(who: Identity, id: int, st: Store): Option<Asset>
  {
    if IsAdmin(who) then
      if id in st.rows then Some(st.rows[id]) else None
    else
      if id in st.rows && st.rows[id].userId == who.id then Some(st.rows[id]) else None
  }

  /** The names of the fields whose rules fail for an insert or update body:
      `name` required, `quantity` required and an integer, `brand` required. */
  function AssetErrors(req: AssetRequest): (errs: set<string>)
    ensures errs <= {"name", "quantity", "brand"}
    ensures "desc" !in errs
    ensures errs == {} <==>
      Required(req.name) && Required(req.brand) && Required(req.quantity) && IsInteger(req.quantity.value)
  {
    var errs :=
      FailsUnless(Required(req.name), "name")
      + FailsUnless(Required(req.quantity) && IsInteger(req.quantity.value), "quantity")
      + FailsUnless(Required(req.brand), "brand");
    assert "desc" !in errs by {
      assert "desc"[0] != "name"[0] && |"desc"| != |"quantity"| && "desc"[0] != "brand"[0];
    }
    errs
  }

  /** The row an accepted request writes for the given owner. */
  function FromRequest(req: AssetRequest, owner: int): Asset
    requires AssetErrors(req) == {}
  {
    Asset(AsText(req.name.value), IntegerOf(req.quantity.value), AsText(req.brand.value),
          OptionalText(req.desc), owner)
  }

  /** `getData`: every asset for an administrator, otherwise exactly the
      caller's own assets. */
  function List(who: Identity, st: Store): (r: map<int, Asset>)
    ensures IsAdmin(who) ==> r == st.rows
    ensures !IsAdmin(who) ==>
      forall id :: id in r <==> id in st.rows && st.rows[id].userId == who.id
    ensures forall id :: id in r ==> id in st.rows && r[id] == st.rows[id]
  {
    map id | id in st.rows && Reaches(who, st.rows[id]) :: st.rows[id]
  }

  /** `show`: the asset with this id, if the caller reaches it; otherwise
      `no_data_found`. */
  function Show(who: Identity, id: int, st: Store): (r: Result<Asset>)
    ensures IsAdmin(who) ==> (r.Ok? <==> id in st.rows)
    ensures !IsAdmin(who) ==> (r.Ok? <==> id in st.rows && st.rows[id].userId == who.id)
    ensures r.Ok? ==> id in st.rows && r.value == st.rows[id]
    ensures r.Err? ==> r.error == NoDataFound
  {
    match Lookup(who, id, st)
    case Some(a) => Ok(a)
    case None => Err(NoDataFound)
  }

  /** `insert`: a body that fails validation changes nothing; otherwise one new
      row, owned by the caller, is added under a fresh id and every existing row
      is kept. */
  function Insert(who: Identity, req: AssetRequest, st: Store): (m: Mutation)
    requires st.Valid()
    ensures m.store.Valid()
    ensures AssetErrors(req) != {} ==> m == Mutation(Failed(Invalid(AssetErrors(req))), st)
    ensures AssetErrors(req) == {} ==>
      && m.outcome == Done
      && st.nextId !in st.rows
      && m.store.rows.Keys == st.rows.Keys + {st.nextId}
      && |m.store.rows| == |st.rows| + 1
      && (forall id :: id in st.rows ==> m.store.rows[id] == st.rows[id])
      && var a := m.store.rows[st.nextId];
         && a.name == AsText(req.name.value)
         && a.quantity == IntegerOf(req.quantity.value)
         && a.brand == AsText(req.brand.value)
         && a.desc == OptionalText(req.desc)
         && a.userId == who.id
  {
    var errs := AssetErrors(req);
    if errs != {} then
      Mutation(Failed(Invalid(errs)), st)
    else
      Mutation(Done, Store(st.rows[st.nextId := FromRequest(req, who.id)], st.nextId + 1))
  }

  /** `update`: the body is validated before the target is looked up; a target
      the caller does not reach is `no_data_found`; either failure leaves the
      table unchanged. On success exactly the four editable columns of the
      target change; its id and owner, and every other row, are kept. */
  function Update(who: Identity, id: int, req: AssetRequest, st: Store): (m: Mutation)
    ensures st.Valid() ==> m.store.Valid()
    ensures AssetErrors(req) != {} ==> m == Mutation(Failed(Invalid(AssetErrors(req))), st)
    ensures AssetErrors(req) == {} && Show(who, id, st).Err? ==> m == Mutation(Failed(NoDataFound), st)
    ensures AssetErrors(req) == {} && Show(who, id, st).Ok? ==>
      && m.outcome == Done
      && m.store.nextId == st.nextId
      && m.store.rows.Keys == st.rows.Keys
      && (forall k :: k in st.rows && k != id ==> m.store.rows[k] == st.rows[k])
      && var a := m.store.rows[id];
         && a.name == AsText(req.name.value)
         && a.quantity == IntegerOf(req.quantity.value)
         && a.brand == AsText(req.brand.value)
         && a.desc == OptionalText(req.desc)
         && a.userId == st.rows[id].userId
  {
    var errs := AssetErrors(req);
    if errs != {} then
      Mutation(Failed(Invalid(errs)), st)
    else
      match Lookup(who, id, st)
      case None => Mutation(Failed(NoDataFound), st)
      case Some(target) =>
        var a := FromRequest(req, target.userId);
        Mutation(Done, st.(rows := st.rows[id := a]))
  }

  /** `delete`: a target the caller does not reach is `no_data_found` and the
      table is unchanged; otherwise exactly that row is removed. */
  function Delete(who: Identity, id: int, st: Store): (m: Mutation)
    ensures st.Valid() ==> m.store.Valid()
    ensures Show(who, id, st).Err? ==> m == Mutation(Failed(NoDataFound), st)
    ensures Show(who, id, st).Ok? ==>
      && m.outcome == Done
      && m.store.nextId == st.nextId
      && m.store.rows.Keys == st.rows.Keys - {id}
      && (forall k :: k in m.store.rows ==> m.store.rows[k] == st.rows[k])
  {
    match Lookup(who, id, st)
    case None => Mutation(Failed(NoDataFound), st)
    case Some(_) => Mutation(Done, st.(rows := st.rows - {id}))
  }

  // ---------------------------------------------------------------------------
  // Properties relating the actions

  /** `getData` and `show` apply the same ownership rule: an id is listed
      exactly when `show` finds it, with the same row. */
  lemma ListAgreesWithShow(who: Identity, id: int, st: Store)
    ensures id in List(who, st) <==> Show(who, id, st).Ok?
    ensures id in List(who, st) ==> List(who, st)[id] == Show(who, id, st).value
  {
  }

  /** After an accepted insert, the new row is shown under the fresh id with
      the request's fields and the caller as owner; another caller sees it
      exactly when that caller is an administrator or the same user. */
  lemma InsertThenShow(who: Identity, req: AssetRequest, st: Store, viewer: Identity)
    requires st.Valid()
    requires AssetErrors(req) == {}
    ensures Show(who, st.nextId, Insert(who, req, st).store) == Ok(FromRequest(req, who.id))
    ensures Show(viewer, st.nextId, Insert(who, req, st).store).Ok? <==> IsAdmin(viewer) || viewer.id == who.id
  {
  }

  /** After a successful update, `show` of that id returns the request's
      fields under the row's original owner. */
  lemma UpdateThenShow(who: Identity, id: int, req: AssetRequest, st: Store)
    requires Update(who, id, req, st).outcome == Done
    ensures AssetErrors(req) == {}
    ensures Show(who, id, Update(who, id, req, st).store) == Ok(FromRequest(req, st.rows[id].userId))
  {
  }

  /** After a successful delete, `show` of that id fails for every caller,
      administrators included. */
  lemma DeleteThenShowFails(who: Identity, id: int, st: Store, viewer: Identity)
    requires Delete(who, id, st).outcome == Done
    ensures Show(viewer, id, Delete(who, id, st).store) == Err(NoDataFound)
  {
  }

  /** One request to a mutating action. */
  datatype Op =
    | InsertOp(who: Identity, req: AssetRequest)
    | UpdateOp(who: Identity, id: int, req: AssetRequest)
    | DeleteOp(who: Identity, id: int)

  function Apply(op: Op, st: Store): (m: Mutation)
    requires st.Valid()
    ensures m.store.Valid()
    ensures m.outcome.Failed? ==> m.store == st
  {
    match op
    case InsertOp(who, req) => Insert(who, req, st)
    case UpdateOp(who, id, req) => Update(who, id, req, st)
    case DeleteOp(who, id) => Delete(who, id, st)
  }

  /** The table after a sequence of requests, each applied to the table the
      previous one left. */
  function Run(ops: seq<Op>, st: Store): (r: Store)
    requires st.Valid()
    ensures r.Valid()
    ensures r.nextId >= st.nextId
  {
    if ops == [] then st else Run(ops[1..], Apply(ops[0], st).store)
  }

  /** An id that was handed out and is no longer in use never comes back:
      the model's key never reuses ids. */
  lemma {:induction false} GoneStaysGone(ops: seq<Op>, st: Store, id: int)
    requires st.Valid()
    requires id < st.nextId && id !in st.rows
    ensures id !in Run(ops, st).rows
  {
    if ops != [] {
      var next := Apply(ops[0], st).store;
      assert id !in next.rows && id < next.nextId;
      GoneStaysGone(ops[1..], next, id);
    }
  }

  /** No sequence of requests reassigns an asset: a row present before and
      after keeps its owner. */
  lemma {:induction false} OwnerIsFixed(ops: seq<Op>, st: Store, id: int)
    requires st.Valid()
    requires id in st.rows && id in Run(ops, st).rows
    ensures Run(ops, st).rows[id].userId == st.rows[id].userId
  {
    if ops != [] {
      var next := Apply(ops[0], st).store;
      if id in next.rows {
        assert next.rows[id].userId == st.rows[id].userId;
        OwnerIsFixed(ops[1..], next, id);
      } else {
        GoneStaysGone(ops[1..], next, id);
      }
    }
  }

  /** After a successful delete, whatever requests follow, `show` of that id
      fails for every caller. */
  lemma DeletedStaysHidden(who: Identity, id: int, st: Store, ops: seq<Op>, viewer: Identity)
    requires st.Valid()
    requires Delete(who, id, st).outcome == Done
    ensures Show(viewer, id, Run(ops, Delete(who, id, st).store)) == Err(NoDataFound)
  {
    GoneStaysGone(ops, Delete(who, id, st).store, id);
  }
}

=== FILE: auth.dfy ===
/** The authentication controller: registration with its validation and
    uniqueness checks, login, profile, and the token envelope both login and
    registration return. Password hashing, the email-format check and JWT
    issuing are library calls; they are the fields of `Services`. Being
    functions, they give equal results for equal arguments; beyond that the
    model assumes nothing about them unless a lemma says so. */
module Auth {
  import opened Api
  import opened Validation

  /** A row of the user table. `password` holds the hash, never the plaintext. */
  datatype User = User(
    id: int,
    name: string,
    username: string,
    password: string,
    email: string,
    noHp: string,
    address: string,
    desc: Option<string>,
    role: int)

  /** The user table: rows in insertion order, and the next id the
      auto-increment key hands out. */
  datatype Users = Users(rows: seq<User>, nextId: int)
  {
    /** Ids are handed out below `nextId` and never twice, and no two users
        share a username, an email or a phone number. */
    predicate Valid()
    {
      && nextId >= 1
      && (forall i :: 0 <= i < |rows| ==> 1 <= rows[i].id < nextId)
      && (forall i, j :: 0 <= i < j < |rows| ==>
            && rows[i].id != rows[j].id
            && rows[i].username != rows[j].username
            && rows[i].email != rows[j].email
            && rows[i].noHp != rows[j].noHp)
    }
  }

  /** The library calls the controller relies on: `Hash::make`, `Hash::check`
      (plaintext, stored hash), the `email` rule's format check, issuing a JWT
      for a user, and the configured token lifetime in minutes. `hash(p)` stands
      for "a hash of p" and `issue(u)` for "a token issued for u": the
      libraries salt every hash and mint a fresh token on every call, which a
      function of these arguments alone does not express. */
  datatype Services = Services(
    hash: string -> string,
    check: (string, string) -> bool,
    isEmail: string -> bool,
    issue: User -> string,
    ttlMinutes: int)

  /** The identity under which a user's later requests run. */
  function IdentityOf(u: User): Identity
  {
    Identity(u.id, u.role)
  }

  // ---------------------------------------------------------------------------
  // Tokens

  datatype Token = Token(accessToken: string, tokenType: string, expiresIn: int)

  /** `respondWithToken`: the token envelope, its lifetime in seconds. */
  function RespondWithToken(token: string, ttlMinutes: int): Token
  {
    Token(token, "bearer", ttlMinutes * 60)
  }

  // ---------------------------------------------------------------------------
  // Registration

  datatype RegisterRequest = RegisterRequest(
    name: Field,
    username: Field,
    password: Field,
    passwordConfirmation: Field,
    email: Field,
    noHp: Field,
    address: Field,
    desc: Field,
    role: Field)

  datatype Session = Session(user: User, token: Token)

  /** The outcome of a registration together with the user table after it. */
  datatype Registration = Registration(result: Result<Session>, users: Users)

  predicate UsernameTaken(users: Users, s: string)
  {
    exists i :: 0 <= i < |users.rows| && users.rows[i].username == s
  }

  predicate EmailTaken(users: Users, s: string)
  {
    exists i :: 0 <= i < |users.rows| && users.rows[i].email == s
  }

  predicate NoHpTaken(users: Users, s: string)
  {
    exists i :: 0 <= i < |users.rows| && users.rows[i].noHp == s
  }

  /** The names of the fields whose registration rules fail. */
  function RegisterErrors(svc: Services, users: Users, req: RegisterRequest): (errs: set<string>)
    ensures errs <= {"name", "username", "password", "email", "no_hp", "address", "role"}
  {
    var account :=
      FailsUnless(Required(req.name) && IsString(req.name.value), "name")
      + FailsUnless(Required(req.username) && !UsernameTaken(users, AsText(req.username.value)), "username")
      + FailsUnless(Required(req.password) && req.passwordConfirmation == req.password, "password");
    assert account <= {"name", "username", "password"};
    var contact :=
      FailsUnless(Required(req.email) && IsString(req.email.value) && svc.isEmail(req.email.value.s)
                  && !EmailTaken(users, req.email.value.s), "email")
      + FailsUnless(Required(req.noHp) && !NoHpTaken(users, AsText(req.noHp.value)), "no_hp")
      + FailsUnless(Required(req.address), "address");
    assert contact <= {"email", "no_hp", "address"};
    account + contact + FailsUnless(Required(req.role) && IsNumeric(req.role.value), "role")
  }


  /** The row an accepted registration writes under the given id. */
  function NewUser(svc: Services, req: RegisterRequest, id: int): User
    requires Required(req.name) && Required(req.username) && Required(req.password)
    requires Required(req.email) && Required(req.noHp) && Required(req.address)
    requires Required(req.role) && IsNumeric(req.role.value)
  {
    User(
      id,
      AsText(req.name.value),
      AsText(req.username.value),
      svc.hash(AsText(req.password.value)),
      AsText(req.email.value),
      AsText(req.noHp.value),
      AsText(req.address.value),
      OptionalText(req.desc),
      NumericOf(req.role.value))
  }

  /** `register`: a request that fails any rule adds no user; otherwise exactly
      one user, carrying the request's fields and the hash of the password, is
      appended, and a token for that user is returned. */
  function Register(svc: Services, users: Users, req: RegisterRequest): (g: Registration)
    ensures g.result.Err? <==> RegisterErrors(svc, users, req) != {}
    ensures g.result.Err? ==> g.result.error == Invalid(RegisterErrors(svc, users, req)) && g.users == users
    ensures users.Valid() ==> g.users.Valid()
    ensures g.result.Ok? ==>
      && g.users.rows == users.rows + [g.result.value.user]
      && g.users.nextId == users.nextId + 1
      && var u := g.result.value.user;
         && u.id == users.nextId
         && u.name == AsText(req.name.value)
         && u.username == AsText(req.username.value)
         && u.password == svc.hash(AsText(req.password.value))
         && u.email == AsText(req.email.value)
         && u.noHp == AsText(req.noHp.value)
         && u.address == AsText(req.address.value)
         && u.desc == OptionalText(req.desc)
         && u.role == NumericOf(req.role.value)
         && g.result.value.token == RespondWithToken(svc.issue(u), svc.ttlMinutes)
  {
    var errs := RegisterErrors(svc, users, req);
    if errs != {} then
      Registration(Err(Invalid(errs)), users)
    else
      var u := NewUser(svc, req, users.nextId);
      Registration(Ok(Session(u, RespondWithToken(svc.issue(u), svc.ttlMinutes))),
                   Users(users.rows + [u], users.nextId + 1))
  }

  // ---------------------------------------------------------------------------
  // Login

  datatype LoginRequest = LoginRequest(username: Field, password: Field)

  function LoginErrors(req: LoginRequest): (errs: set<string>)
    ensures errs == {} <==> Required(req.username) && Required(req.password)
  {
    (if Required(req.username) then {} else {"username"})
    + (if Required(req.password) then {} else {"password"})
  }

  /** The position of the first user with this username, as the user provider's
      `where username = ? ... first()` finds it. */
  function FirstWithUsername(rows: seq<User>, name: string): (r: Option<nat>)
    ensures r.None? <==> forall i :: 0 <= i < |rows| ==> rows[i].username != name
    ensures r.Some? ==>
      && r.value < |rows|
      && rows[r.value].username == name
      && forall j :: 0 <= j < r.value ==> rows[j].username != name
  {
    if rows == [] then None
    else if rows[0].username == name then Some(0)
    else
      match FirstWithUsername(rows[1..], name)
      case None => None
      case Some(k) => Some(k + 1)
  }

  /** `login`: missing fields are reported before any credential is looked at;
      then the credentials pass when a user with that username exists and the
      password checks against that user's stored hash, and fail with
      `invalid_credentials` otherwise. */
  function Login(svc: Services, users: Users, req: LoginRequest): (r: Result<Token>)
    ensures LoginErrors(req) != {} ==> r == Err(Invalid(LoginErrors(req)))
    ensures LoginErrors(req) == {} && r.Err? ==> r.error == InvalidCredentials
    ensures LoginErrors(req) == {} && users.Valid() ==>
      (r.Ok? <==>
         exists i :: && 0 <= i < |users.rows|
                     && users.rows[i].username == AsText(req.username.value)
                     && svc.check(AsText(req.password.value), users.rows[i].password))
    ensures r.Ok? ==>
      exists i :: && 0 <= i < |users.rows|
                  && users.rows[i].username == AsText(req.username.value)
                  && r.value == RespondWithToken(svc.issue(users.rows[i]), svc.ttlMinutes)
  {
    var errs := LoginErrors(req);
    if errs != {} then
      Err(Invalid(errs))
    else
      var name := AsText(req.username.value);
      match FirstWithUsername(users.rows, name)
      case None => Err(InvalidCredentials)
      case Some(i) =>
        var u := users.rows[i];
        if svc.check(AsText(req.password.value), u.password) then
          Ok(RespondWithToken(svc.issue(u), svc.ttlMinutes))
        else
          Err(InvalidCredentials)
  }

  // ---------------------------------------------------------------------------
  // Profile

  /** `profile`: the authenticated user, or `user_not_found` when the request
      carries none. */
  function Profile(current: Option<User>): (r: Result<User>)
    ensures r.Ok? <==> current.Some?
    ensures r.Ok? ==> r.value == current.value
    ensures r.Err? ==> r.error == UserNotFound
  {
    match current
    case None => Err(UserNotFound)
    case Some(u) => Ok(u)
  }

  // ---------------------------------------------------------------------------
  // Properties relating the actions

  /** A username, email or phone number already held by a user makes the
      registration fail on that field, and no user is added. */
  lemma RegisterRejectsDuplicates(svc: Services, users: Users, req: RegisterRequest, i: int)
    requires 0 <= i < |users.rows|
    ensures Required(req.username) && users.rows[i].username == AsText(req.username.value) ==>
      && Register(svc, users, req).result.Err?
      && "username" in Register(svc, users, req).result.error.fields
      && Register(svc, users, req).users == users
    ensures Required(req.email) && users.rows[i].email == AsText(req.email.value) ==>
      && Register(svc, users, req).result.Err?
      && "email" in Register(svc, users, req).result.error.fields
      && Register(svc, users, req).users == users
    ensures Required(req.noHp) && users.rows[i].noHp == AsText(req.noHp.value) ==>
      && Register(svc, users, req).result.Err?
      && "no_hp" in Register(svc, users, req).result.error.fields
      && Register(svc, users, req).users == users
  {
  }

  /** Registration succeeds exactly when every rule holds: name a present
      string; username present and unused; password present and equal to its
      confirmation; email a present, well-formed, unused string; phone number
      present and unused; address present; role present and numeric. */
  lemma RegisterAcceptsExactly(svc: Services, users: Users, req: RegisterRequest)
    ensures Register(svc, users, req).result.Ok? <==>
      && Required(req.name) && IsString(req.name.value)
      && Required(req.username) && !UsernameTaken(users, AsText(req.username.value))
      && Required(req.password) && req.passwordConfirmation == req.password
      && Required(req.email) && IsString(req.email.value) && svc.isEmail(req.email.value.s)
      && !EmailTaken(users, req.email.value.s)
      && Required(req.noHp) && !NoHpTaken(users, AsText(req.noHp.value))
      && Required(req.address)
      && Required(req.role) && IsNumeric(req.role.value)
  {
  }

  /** A user who has just registered can log in with the same username and
      password, and receives a token issued for the new user, provided the
      password check accepts what the hash produced. */
  lemma RegisterThenLogin(svc: Services, users: Users, req: RegisterRequest)
    requires users.Valid()
    requires forall p :: svc.check(p, svc.hash(p))
    requires Register(svc, users, req).result.Ok?
    ensures
      var g := Register(svc, users, req);
      Login(svc, g.users, LoginRequest(req.username, req.password))
        == Ok(RespondWithToken(svc.issue(g.result.value.user), svc.ttlMinutes))
  {
    var g := Register(svc, users, req);
    var u := g.result.value.user;
    var name := AsText(req.username.value);
    assert !UsernameTaken(users, name) by {
      RegisterAcceptsExactly(svc, users, req);
    }
    var rows := g.users.rows;
    assert rows[|users.rows|] == u;
    var k := FirstWithUsername(rows, name);
    assert k == Some(|users.rows|) by {
      assert forall j :: 0 <= j < |users.rows| ==> rows[j].username != name by {
        forall j | 0 <= j < |users.rows|
          ensures rows[j].username != name
        {
          assert rows[j] == users.rows[j];
        }
      }
    }
  }

  /** Every token handed out, by login or by registration, is a bearer token
      whose lifetime in seconds is the configured lifetime in minutes times 60. */
  lemma IssuedTokensAreBearer(svc: Services, users: Users, login: LoginRequest, reg: RegisterRequest)
    ensures Login(svc, users, login).Ok? ==>
      && Login(svc, users, login).value.tokenType == "bearer"
      && Login(svc, users, login).value.expiresIn == svc.ttlMinutes * 60
    ensures Register(svc, users, reg).result.Ok? ==>
      && Register(svc, users, reg).result.value.token.tokenType == "bearer"
      && Register(svc, users, reg).result.value.token.expiresIn == svc.ttlMinutes * 60
  {
  }

  /** A login request with a missing field is answered without looking at the
      user table or the password check: its outcome is the same whatever they
      hold. */
  lemma LoginChecksFieldsFirst(svc: Services, svc': Services, users: Users, users': Users, req: LoginRequest)
    requires LoginErrors(req) != {}
    ensures Login(svc, users, req) == Login(svc', users', req)
    ensures Login(svc, users, req).Err? && Login(svc, users, req).error.Invalid?
  {
  }
}

=== FILE: scenario.dfy ===
/** A walk through both controllers: a standard user registers and inserts an
    asset; an administrator and a second standard user register; the
    administrator's list holds the asset, the second user's does not. */
module Scenario {
  import opened Api
  import opened Validation
  import opened Assets
  import opened Auth

  /** Library stand-ins for the walk-through: a hash that tags the password,
      a check that recognises the tag, every address well-formed, one token
      value, a lifetime of 60 minutes. */
  function Stub(): Services
  {
    Services(p => "h:" + p, (p, h) => h == "h:" + p, e => true, u => "jwt", 60)
  }

  function Signup(name: string, username: string, email: string, noHp: string, role: Value): RegisterRequest
  {
    RegisterRequest(Some(Text(name)), Some(Text(username)), Some(Text("secret")), Some(Text("secret")),
                    Some(Text(email)), Some(Text(noHp)), Some(Text("Jl. Merdeka")), None, Some(role))
  }

  function Alice(): RegisterRequest { Signup("A", "alice", "a@example.com", "0811", Number(2)) }
  function Bob(): RegisterRequest { Signup("B", "bob", "b@example.com", "0812", Number(1)) }
  function Carol(): RegisterRequest { Signup("C", "carol", "c@example.com", "0813", Number(2)) }

  /** The rows the three registrations are expected to write. */
  function UserA(): User { User(1, "A", "alice", "h:secret", "a@example.com", "0811", "Jl. Merdeka", None, 2) }
  function UserB(): User { User(2, "B", "bob", "h:secret", "b@example.com", "0812", "Jl. Merdeka", None, 1) }
  function UserC(): User { User(3, "C", "carol", "h:secret", "c@example.com", "0813", "Jl. Merdeka", None, 2) }

  function StubToken(): Token { Token("jwt", "bearer", 3600) }

  /** A walk-through sign-up whose username, email and phone number are still
      free is accepted: the new user is appended under the next id with the
      hashed password and the role's numeric value, and receives the stub token. */
  lemma {:induction false} SignupSucceeds(users: Users, name: string, username: string, email: string, noHp: string,
                                          role: Value, roleValue: int)
    requires |name| > 0 && |username| > 0 && |email| > 0 && |noHp| > 0
    requires !IsTrimChar(name[0]) && !IsTrimChar(username[0]) && !IsTrimChar(email[0]) && !IsTrimChar(noHp[0])
    requires Required(Some(role)) && IsNumeric(role) && NumericOf(role) == roleValue
    requires !UsernameTaken(users, username) && !EmailTaken(users, email) && !NoHpTaken(users, noHp)
    ensures
      var u := User(users.nextId, name, username, "h:secret", email, noHp, "Jl. Merdeka", None, roleValue);
      Register(Stub(), users, Signup(name, username, email, noHp, role))
        == Registration(Ok(Session(u, StubToken())), Users(users.rows + [u], users.nextId + 1))
  {
    var req := Signup(name, username, email, noHp, role);
    var g := Register(Stub(), users, req);
    assert g.result.Ok? by {
      SignupFieldsPresent(name, username, email, noHp, role);
      assert Stub().isEmail(email);
      RegisterAcceptsExactly(Stub(), users, req);
    }
    var u := g.result.value.user;
    assert g.result.value.token == StubToken();
    assert u.role == roleValue && u.password == "h:secret" && u.address == "Jl. Merdeka";
  }

  /** None of the given rows uses this username, email or phone number. */
  lemma {:induction false} FreshAgainst(rows: seq<User>, nextId: int, username: string, email: string, noHp: string)
    requires forall i :: 0 <= i < |rows| ==>
      rows[i].username != username && rows[i].email != email && rows[i].noHp != noHp
    ensures !UsernameTaken(Users(rows, nextId), username)
    ensures !EmailTaken(Users(rows, nextId), email)
    ensures !NoHpTaken(Users(rows, nextId), noHp)
  {
  }

  lemma RegisterAlice()
    ensures Register(Stub(), Users([], 1), Alice())
      == Registration(Ok(Session(UserA(), StubToken())), Users([UserA()], 2))
  {
    SignupSucceeds(Users([], 1), "A", "alice", "a@example.com", "0811", Number(2), 2);
  }

  lemma RegisterBob()
    ensures Register(Stub(), Users([UserA()], 2), Bob())
      == Registration(Ok(Session(UserB(), StubToken())), Users([UserA(), UserB()], 3))
  {
    var users := Users([UserA()], 2);
    assert "alice"[0] != "bob"[0] && "a@example.com"[0] != "b@example.com"[0] && "0811"[3] != "0812"[3];
    FreshAgainst(users.rows, users.nextId, "bob", "b@example.com", "0812");
    SignupSucceeds(users, "B", "bob", "b@example.com", "0812", Number(1), 1);
  }

  lemma RegisterCarol()
    ensures Register(Stub(), Users([UserA(), UserB()], 3), Carol())
      == Registration(Ok(Session(UserC(), StubToken())), Users([UserA(), UserB(), UserC()], 4))
  {
    var users := Users([UserA(), UserB()], 3);
    assert !UsernameTaken(users, "carol") && !EmailTaken(users, "c@example.com") && !NoHpTaken(users, "0813") by {
      assert "alice"[0] != "carol"[0] && "a@example.com"[0] != "c@example.com"[0] && "0811"[3] != "0813"[3];
      assert "bob"[0] != "carol"[0] && "b@example.com"[0] != "c@example.com"[0] && "0812"[3] != "0813"[3];
      FreshAgainst(users.rows, users.nextId, "carol", "c@example.com", "0813");
    }
    SignupSucceeds(users, "C", "carol", "c@example.com", "0813", Number(2), 2);
  }

  /** A role sent as the text " 2" is present and numeric, and is stored as 2:
      the leading space does not make the `numeric` rule refuse it. */
  lemma PaddedTextRole()
    ensures Required(Some(Text(" 2")))
    ensures IsNumeric(Text(" 2")) && NumericOf(Text(" 2")) == 2
  {
    assert !IsTrimChar(" 2"[1]);
    NumericRuleIgnoresLeadingSpace(2, " ");
    assert " " + IntToText(2) == " 2";
  }

  /** A fourth sign-up reusing the first username is refused on that field
      alone. */
  lemma RegisterDuplicateUsername()
    ensures Register(Stub(), Users([UserA(), UserB(), UserC()], 4),
                     Signup("D", "alice", "d@example.com", "0814", Number(2))).result
      == Err(Invalid({"username"}))
  {
    var users := Users([UserA(), UserB(), UserC()], 4);
    SignupFieldsPresent("D", "alice", "d@example.com", "0814", Number(2));
    assert UsernameTaken(users, "alice") by { assert users.rows[0].username == "alice"; }
    assert !EmailTaken(users, "d@example.com");
    assert !NoHpTaken(users, "0814");
  }

  lemma InsertLaptop()
    ensures Insert(IdentityOf(UserA()), AssetRequest(Some(Text("Laptop")), Some(Number(5)), Some(Text("Acme")), None),
                   Store(map[], 1))
      == Mutation(Done, Store(map[1 := Asset("Laptop", 5, "Acme", None, 1)], 2))
  {
    assert !IsTrimChar("Laptop"[0]) && !IsTrimChar("Acme"[0]);
  }

  /** The walk-through: A (standard) inserts a laptop; it is stored with A as
      owner; A and the administrator B list it; C (standard) does not. */
  lemma AdminSeesStandardUsersAsset()
    ensures
      var st := Insert(IdentityOf(UserA()),
                       AssetRequest(Some(Text("Laptop")), Some(Number(5)), Some(Text("Acme")), None),
                       Store(map[], 1)).store;
      && Show(IdentityOf(UserA()), 1, st) == Ok(Asset("Laptop", 5, "Acme", None, UserA().id))
      && 1 in List(IdentityOf(UserA()), st)
      && 1 in List(IdentityOf(UserB()), st)
      && 1 !in List(IdentityOf(UserC()), st)
  {
    InsertLaptop();
  }

  /** The whole walk-through, starting from empty tables: the users the three
      registrations return are the expected rows, and the asset the first one
      inserts is listed for the first and the administrator but not the third. */
  lemma {:induction false} Walkthrough()
    ensures
      var ga := Register(Stub(), Users([], 1), Alice());
      var gb := Register(Stub(), ga.users, Bob());
      var gc := Register(Stub(), gb.users, Carol());
      && ga.result.Ok? && gb.result.Ok? && gc.result.Ok?
      && var st := Insert(IdentityOf(ga.result.value.user),
                          AssetRequest(Some(Text("Laptop")), Some(Number(5)), Some(Text("Acme")), None),
                          Store(map[], 1)).store;
         && 1 in List(IdentityOf(ga.result.value.user), st)
         && 1 in List(IdentityOf(gb.result.value.user), st)
         && 1 !in List(IdentityOf(gc.result.value.user), st)
         && Register(Stub(), gc.users, Signup("D", "alice", "d@example.com", "0814", Number(2))).result.Err?
  {
    RegisterAlice();
    RegisterBob();
    RegisterCarol();
    RegisterDuplicateUsername();
    AdminSeesStandardUsersAsset();
  }

  /** Every field of a walk-through registration except the role passes
      `required`. */
  lemma SignupFieldsPresent(name: string, username: string, email: string, noHp: string, role: Value)
    requires |name| > 0 && |username| > 0 && |email| > 0 && |noHp| > 0
    requires !IsTrimChar(name[0]) && !IsTrimChar(username[0]) && !IsTrimChar(email[0]) && !IsTrimChar(noHp[0])
    ensures
      var req := Signup(name, username, email, noHp, role);
      && Required(req.name) && Required(req.username) && Required(req.password) && Required(req.email)
      && Required(req.noHp) && Required(req.address)
  {
    assert !IsTrimChar("secret"[0]) && !IsTrimChar("Jl. Merdeka"[0]);
  }
}

=== FILE: validation.dfy ===
/** The request-validation rules the two controllers use (`required`, `string`,
    `integer`, `numeric`, `confirmed`), over request values as they arrive in a
    decoded JSON body, together with the decimal reading and printing of
    integers that the `integer` rule and the string columns rely on. */
module Validation {
  import opened Api

  /** A request value: a JSON string or a JSON integer. `json_decode` yields a
      PHP integer only for literals within the 64-bit range; a larger literal
      becomes a float, which is not a request value here. */
  datatype Value = Text(s: string) | Number(n: JsonInt)

  /** A request field; `None` when the key is absent or its value is null. */
  type Field = Option<Value>

  /** The range of a PHP integer on a 64-bit build. */
  const Int64Min: int := -0x8000_0000_0000_0000
  const Int64Max: int := 0x7FFF_FFFF_FFFF_FFFF

  predicate InInt64(n: int)
  {
    Int64Min <= n <= Int64Max
  }

  /** An integer a decoded JSON body can carry. */
  type JsonInt = n: int | InInt64(n)

  /** Whether `c` is one of the characters PHP's `trim` removes by default:
      space, tab, newline, carriage return, NUL and vertical tab. */
  predicate IsTrimChar(c: char)
  {
    c == ' ' || c == '\t' || c == '\n' || c == '\r' || c as int == 0 || c as int == 11
  }

  /** Whether `trim` would leave the string empty. */
  predicate Blank(s: string)
  {
    forall i :: 0 <= i < |s| ==> IsTrimChar(s[i])
  }

  /** The `required` rule: a null or absent field fails, and so does a string
      that trimming would leave empty. */
  predicate Required(f: Field)
  {
    match f
    case None => false
    case Some(Number(_)) => true
    case Some(Text(s)) => !Blank(s)
  }

  /** The field's name when its rules fail, nothing when they pass. */
  function FailsUnless(ok: bool, field: string): set<string>
  {
    if ok then {} else {field}
  }

  /** The `string` rule. */
  predicate IsString(v: Value)
  {
    v.Text?
  }

  // ---------------------------------------------------------------------------
  // Decimal text

  predicate IsDigit(c: char)
  {
    '0' <= c <= '9'
  }

  predicate AllDigits(s: string)
  {
    forall i :: 0 <= i < |s| ==> IsDigit(s[i])
  }

  function DigitOf(c: char): nat
    requires IsDigit(c)
  {
    c as int - '0' as int
  }

  function DigitChar(d: nat): char
    requires d < 10
  {
    ('0' as int + d) as char
  }

  /** The value of a string of decimal digits, most significant first. */
  function DigitsValue(s: string): nat
    requires AllDigits(s)
  {
    if |s| == 0 then 0 else 10 * DigitsValue(s[..|s| - 1]) + DigitOf(s[|s| - 1])
  }

  /** A digit string without leading zeros ("0" itself is allowed). */
  predicate NoLeadingZero(m: string)
  {
    |m| > 0 && (m[0] != '0' || |m| == 1)
  }

  predicate HasSign(s: string)
  {
    |s| > 0 && (s[0] == '-' || s[0] == '+')
  }

  predicate IsNegative(s: string)
  {
    |s| > 0 && s[0] == '-'
  }

  /** The digits after an optional leading sign. */
  function Magnitude(s: string): string
  {
    if HasSign(s) then s[1..] else s
  }

  /** An optional sign followed by at least one decimal digit. */
  predicate NumericText(s: string)
  {
    |Magnitude(s)| > 0 && AllDigits(Magnitude(s))
  }

  function TextValue(s: string): int
    requires NumericText(s)
  {
    var d: int := DigitsValue(Magnitude(s));
    if IsNegative(s) then -d else d
  }

  /** The text PHP's integer validation filter accepts: an optional sign, digits
      without leading zeros, and a value that fits a 64-bit integer. */
  predicate IntegerText(s: string)
  {
    NumericText(s) && NoLeadingZero(Magnitude(s)) && InInt64(TextValue(s))
  }

  /** The characters PHP's integer filter strips from both ends of its input:
      space, tab, newline, carriage return and vertical tab. */
  const FilterSpaces: set<char> := {' ', '\t', '\n', '\r', 11 as char}

  /** The characters `is_numeric` allows in front of a number: those, and form
      feed. */
  const NumericSpaces: set<char> := FilterSpaces + {12 as char}

  /** `s` without its leading characters of the given class. */
  function TrimStart(s: string, space: set<char>): (r: string)
    ensures |r| <= |s| && r == s[|s| - |r|..]
    ensures forall i :: 0 <= i < |s| - |r| ==> s[i] in space
    ensures r == [] || r[0] !in space
  {
    if |s| > 0 && s[0] in space then TrimStart(s[1..], space) else s
  }

  /** `s` without its trailing characters of the given class. */
  function TrimEnd(s: string, space: set<char>): (r: string)
    ensures |r| <= |s| && r == s[..|r|]
    ensures forall i :: |r| <= i < |s| ==> s[i] in space
    ensures r == [] || r[|r| - 1] !in space
  {
    if |s| > 0 && s[|s| - 1] in space then TrimEnd(s[..|s| - 1], space) else s
  }

  /** The text the integer filter actually reads. */
  function FilterTrim(s: string): string
  {
    TrimEnd(TrimStart(s, FilterSpaces), FilterSpaces)
  }

  /** The `integer` rule: PHP's integer filter, which ignores surrounding
      whitespace. */
  predicate IsInteger(v: Value)
  {
    match v
    case Number(_) => true
    case Text(s) => IntegerText(FilterTrim(s))
  }

  function IntegerOf(v: Value): int
    requires IsInteger(v)
  {
    match v
    case Number(n) => n
    case Text(s) => TextValue(FilterTrim(s))
  }

  /** The `numeric` rule (`is_numeric`), restricted to decimal integers with
      optional leading whitespace. */
  predicate IsNumeric(v: Value)
  {
    match v
    case Number(_) => true
    case Text(s) => NumericText(TrimStart(s, NumericSpaces))
  }

  function NumericOf(v: Value): int
    requires IsNumeric(v)
  {
    match v
    case Number(n) => n
    case Text(s) => TextValue(TrimStart(s, NumericSpaces))
  }

  /** The decimal digits of a natural number, as PHP prints it. */
  function NatToText(n: nat): (s: string)
    ensures |s| > 0 && AllDigits(s)
  {
    if n < 10 then [DigitChar(n)] else NatToText(n / 10) + [DigitChar(n % 10)]
  }

  /** PHP's conversion of an integer to a string. */
  function IntToText(n: int): string
  {
    if n < 0 then "-" + NatToText(-n) else NatToText(n)
  }

  /** A request value as it is written into a string column. */
  function AsText(v: Value): string
  {
    match v
    case Text(s) => s
    case Number(n) => IntToText(n)
  }

  function OptionalText(f: Field): (r: Option<string>)
    ensures r.None? <==> f.None?
  {
    match f
    case None => None
    case Some(v) => Some(AsText(v))
  }

  // ---------------------------------------------------------------------------
  // Round trips between integers and their decimal text

  lemma {:induction false} NatToTextReadsBack(n: nat)
    ensures DigitsValue(NatToText(n)) == n
    ensures NoLeadingZero(NatToText(n))
  {
    var s := NatToText(n);
    if n >= 10 {
      NatToTextReadsBack(n / 10);
      var p := NatToText(n / 10);
      assert s[..|s| - 1] == p;
      assert DigitsValue(s) == 10 * DigitsValue(p) + n % 10;
      assert s[0] == p[0];
    }
  }

  lemma {:induction false} PositiveLeadingDigit(m: string)
    requires AllDigits(m) && |m| > 0 && m[0] != '0'
    ensures DigitsValue(m) >= 1
  {
    if |m| > 1 {
      PositiveLeadingDigit(m[..|m| - 1]);
    }
  }

  lemma {:induction false} DigitsReadBack(m: string)
    requires AllDigits(m) && NoLeadingZero(m)
    ensures NatToText(DigitsValue(m)) == m
  {
    if |m| > 1 {
      var p := m[..|m| - 1];
      PositiveLeadingDigit(p);
      DigitsReadBack(p);
      var v := DigitsValue(m);
      assert v / 10 == DigitsValue(p) && v % 10 == DigitOf(m[|m| - 1]);
      assert m == p + [m[|m| - 1]];
    }
  }

  /** Every 64-bit integer, printed in decimal, passes the `integer` rule and
      reads back as itself; the printed text has nothing for the filter to trim,
      so the filter's core check accepts it as it stands. */
  lemma IntToTextRoundTrip(n: int)
    requires InInt64(n)
    ensures IsInteger(Text(IntToText(n))) && IntegerOf(Text(IntToText(n))) == n
    ensures FilterTrim(IntToText(n)) == IntToText(n)
    ensures IntegerText(IntToText(n)) && TextValue(IntToText(n)) == n
  {
    var t := IntToText(n);
    IntToTextReadsBack(n);
    TrimStartPadding("", t, FilterSpaces);
    assert "" + t == t;
    TrimEndPadding(t, "", FilterSpaces);
    assert t + "" == t;
  }

  /** Any integer, printed in decimal, is number text without leading zeros
      that reads back as itself, and it neither starts nor ends with
      whitespace. */
  lemma IntToTextReadsBack(n: int)
    ensures NumericText(IntToText(n)) && NoLeadingZero(Magnitude(IntToText(n)))
    ensures TextValue(IntToText(n)) == n
    ensures var t := IntToText(n); t[0] !in NumericSpaces && t[|t| - 1] !in NumericSpaces
  {
    var t := IntToText(n);
    var m := NatToText(if n < 0 then -n else n);
    NatToTextReadsBack(if n < 0 then -n else n);
    assert Magnitude(t) == m;
    assert IsDigit(m[0]) && IsDigit(m[|m| - 1]);
    assert t[|t| - 1] == m[|m| - 1];
  }

  /** Conversely, integer text carrying no `+` sign and not written "-0" is
      exactly the decimal printing of its value: reading it as an integer loses
      nothing. */
  lemma TextRoundTrip(s: string)
    requires IntegerText(s)
    requires s[0] != '+' && s != "-0"
    ensures IntToText(TextValue(s)) == s
  {
    var m := Magnitude(s);
    DigitsReadBack(m);
    if IsNegative(s) {
      assert s == "-" + m;
    }
  }

  // ---------------------------------------------------------------------------
  // Whitespace around numbers

  lemma {:induction false} TrimStartPadding(pre: string, t: string, space: set<char>)
    requires forall i :: 0 <= i < |pre| ==> pre[i] in space
    requires |t| > 0 && t[0] !in space
    ensures TrimStart(pre + t, space) == t
  {
    if |pre| > 0 {
      assert (pre + t)[1..] == pre[1..] + t;
      TrimStartPadding(pre[1..], t, space);
    }
  }

  lemma {:induction false} TrimEndPadding(t: string, post: string, space: set<char>)
    requires forall i :: 0 <= i < |post| ==> post[i] in space
    requires |t| > 0 && t[|t| - 1] !in space
    ensures TrimEnd(t + post, space) == t
  {
    if |post| > 0 {
      var q := post[..|post| - 1];
      assert (t + post)[..|t + post| - 1] == t + q;
      TrimEndPadding(t, q, space);
    }
  }

  /** Whitespace the integer filter strips, put around a 64-bit integer's
      decimal text, changes neither acceptance nor value: " 5 " passes the
      `integer` rule and reads as 5. */
  lemma IntegerRuleIgnoresPadding(n: int, pre: string, post: string)
    requires InInt64(n)
    requires forall i :: 0 <= i < |pre| ==> pre[i] in FilterSpaces
    requires forall i :: 0 <= i < |post| ==> post[i] in FilterSpaces
    ensures IsInteger(Text(pre + IntToText(n) + post))
    ensures IntegerOf(Text(pre + IntToText(n) + post)) == n
  {
    FilterTrimsPadding(n, pre, post);
    IntToTextRoundTrip(n);
  }

  /** The integer filter's trimming takes exactly the padding off a printed
      integer. */
  lemma FilterTrimsPadding(n: int, pre: string, post: string)
    requires forall i :: 0 <= i < |pre| ==> pre[i] in FilterSpaces
    requires forall i :: 0 <= i < |post| ==> post[i] in FilterSpaces
    ensures FilterTrim(pre + IntToText(n) + post) == IntToText(n)
  {
    var t := IntToText(n);
    IntToTextReadsBack(n);
    TrimStartPadding(pre, t + post, FilterSpaces);
    assert pre + t + post == pre + (t + post);
    TrimEndPadding(t, post, FilterSpaces);
  }

  /** Whitespace in front of an integer's decimal text changes neither the
      `numeric` rule's verdict nor the value: " 2" is numeric and reads as 2. */
  lemma NumericRuleIgnoresLeadingSpace(n: int, pre: string)
    requires forall i :: 0 <= i < |pre| ==> pre[i] in NumericSpaces
    ensures IsNumeric(Text(pre + IntToText(n)))
    ensures NumericOf(Text(pre + IntToText(n))) == n
  {
    var t := IntToText(n);
    IntToTextReadsBack(n);
    TrimStartPadding(pre, t, NumericSpaces);
  }
}
